=== FILE: README.md ===
# External drives documentation — a Dafny model of the scanner and the spreadsheet logic

The program documents what is stored on external drives. It scans every mounted
partition it judges external, lists the non-hidden, non-blacklisted top-level
directories of each non-blacklisted drive together with the drive's name and
capacity, and keeps a Google spreadsheet up to date with the result. Three parts
of it are modelled here.

- **Scanning** (`DrivesScanner`, in `drives_scanner.dfy`):
  - recognising a leading `YYYY-MM-DD`-like date in a directory name;
  - the per-platform heuristics that decide whether a partition is an external drive;
  - the drive and directory blacklists;
  - the two result shapes: a flat table of rows, and a map from drive name to drive record.
- **Table maintenance** (`SpreadsheetDocu`, in `spreadsheet_docu.dfy`):
  - filtering a table by the blacklists;
  - replacing the downloaded rows of connected drives by their fresh rows;
  - the merge-then-filter pass whose result is uploaded.
- **Formatting** (`SpreadsheetFormatter`, in `spreadsheet_formatter.dfy`):
  - converting a column position to spreadsheet letters (`0 → A`, `26 → AA`) and back;
  - rebuilding the conditional-format rules of one column, in place on the rule-list object.

Shared parts:

- `catalog.dfy` holds the records and the DataFrame model.
- `seqs.dfy` holds list comprehension filtering, `list.remove` and `Series.unique`, with their facts.
- `wrappers.dfy` holds `Option` and `Result`.

## Modelling decisions

- **Operating-system answers are inputs.** The OS is never called. A `Partition` carries what it reports about its mountpoint:
  - the volume label and the drive-type code (Windows);
  - the total and free capacity;
  - the directory listing.

  `os.name` becomes the `Platform` parameter.
- **Sizes are not computed.** They are `real` values that are only copied (`Gigabytes`).
- **A DataFrame is `Frame(hasColumns, rows)`.** `pd.DataFrame([])` has no columns at all, so selecting `"drive-name"` from it raises a `KeyError`. The model returns `Err(MissingColumn(..))` in that case. Consequence for the upload: `UpdateOnlineSpreadsheet` fails exactly when the downloaded sheet has no columns.
- **Where the docstrings and the code differ, the model follows the code:**
  - The docstring promises `YYYY-MM-DD`, but the date separator is regex `\W`, any non-word character. A letter or `_` is rejected; `-`, `.` and space are accepted.
  - The docstring of `is_blacklisted_drive` speaks of drive names, but on POSIX it compares the whole mountpoint string (e.g. `/media/usb`) with the blacklist. It does not compare the documented drive name (`usb`). Consequences are proved in `PosixBlacklistMissesDriveNames` and `PosixBlacklistExample`: a blacklist of drive names never excludes a POSIX drive whose mountpoint contains `/`, and such a drive is still documented under its blacklisted name.
  - The mount-root test is a plain string prefix, so `/mntX` counts as external (`MountRootIsPlainPrefix`).
- **Rule list.** `ConditionalFormatRules` is a class whose `rules` field the methods reassign. `list.remove` deletes the first *equal* rule (`Seqs.RemoveFirst`). `RemoveRulesByColumn` proves that, in the order the loop removes rules, this is always the rule under inspection.
- **The formatted range stops one row early on long tables.** The header is row 1, so a table of n data rows fills sheet rows 2 to n + 1. The range `{col}2:{col}{max(990, n)}` ends at row max(990, n). From 990 data rows on, the last data row is therefore never coloured. The model keeps the code's bound, and `ColumnRangeRows` states where the range ends.

## Model

| member | source | states |
|---|---|---|
| DrivesScanner.DateFromDirName | drives_scanner.py:59-62 | A date is returned iff the name has at least ten characters of the form digit×4, non-word, digit×2, non-word, digit×2; the date is then the first ten characters |
| DrivesScanner.FullMatch | drives_scanner.py:59 | `re.fullmatch` of single-character classes succeeds iff the lengths agree and every character is in its class |
| DrivesScanner.Take | drives_scanner.py:59-60 | `s[:n]` has length min(n, len s) and is a prefix of s |
| DrivesScanner.DateExamples | drives_scanner.py:59-62 | `2023-01-15_trip` and `2023-01-15-x` give `2023-01-15`; `2023_01_15x`, `not-a-date-dir` and a nine-character name give no date |
| DrivesScanner.ContainsAt | drives_scanner.py:82 | A substring occurring at any position is found by the `in` test |
| DrivesScanner.Lower | drives_scanner.py:82 | `str.lower()` keeps the length, leaves no capital letter, maps each capital to its small letter and keeps every other character |
| DrivesScanner.Contains | drives_scanner.py:82 | `sub in s` holds iff `sub` is a prefix of `s` from some position on |
| DrivesScanner.StartsWithAny | drives_scanner.py:98 | `startswith` with a tuple holds iff one of the prefixes equals the string's first characters |
| DrivesScanner.IsExternalDrive | drives_scanner.py:70-98 | An external partition has no `cdrom` option in any letter case and a non-empty filesystem type; on Windows it also has a volume label |
| DrivesScanner.CdromIsNeverExternal | drives_scanner.py:82-83 | A partition whose options contain `cdrom` in any letter case is never external, on either platform |
| DrivesScanner.ExternalDriveByPlatform | drives_scanner.py:85-98 | Once past the cdrom and empty-fstype rejections: on Windows, external iff the volume label is non-empty and the drive type is 2 or 3; on POSIX, iff the mountpoint starts with `/media`, `/mnt` or `/Volumes` |
| DrivesScanner.MountRootIsPlainPrefix | drives_scanner.py:98 | The POSIX test is a string prefix: `/mntX` is external |
| DrivesScanner.ExternalDrives | drives_scanner.py:108-112 | The external partitions are exactly the listed partitions that pass the test, in listing order, each as many times as it is listed |
| DrivesScanner.DriveProperties | drives_scanner.py:115-140 | The capacity is the partition's. The name is the volume label on Windows; on POSIX it is `BaseName` of the mountpoint, the final path component, which contains no separator |
| DrivesScanner.BaseName | drives_scanner.py:134 | The drive name taken from a POSIX mountpoint contains no `/` |
| DrivesScanner.BaseNameOfChild | drives_scanner.py:134 | The final component of `dir/name`, with or without a trailing `/`, is `name` (for a non-empty, slash-free name) |
| DrivesScanner.BaseNameExamples | drives_scanner.py:134 | `/media/usb` → `usb`, `/Volumes/Backup/` → `Backup`, `/` → empty |
| DrivesScanner.IsBlacklistedDrive | drives_scanner.py:184-199 | On Windows a drive is blacklisted iff its documented name is listed; on POSIX iff its whole mountpoint string is listed |
| DrivesScanner.PosixBlacklistMissesDriveNames | drives_scanner.py:198-199 | On POSIX a blacklist of slash-free names never blacklists a mountpoint containing `/` |
| DrivesScanner.PosixBlacklistExample | drives_scanner.py:199 | `/media/usb` with blacklist {`usb`} is not blacklisted, yet its drive name `usb` is in the blacklist |
| DrivesScanner.IsValidDirectory | drives_scanner.py:143-158 | A child is accepted iff it is a directory, its name does not start with `.`, and its name is not blacklisted |
| DrivesScanner.ValidDirectoryExamples | drives_scanner.py:154-158 | Hidden, blacklisted or non-directory children are rejected; a visible, non-blacklisted directory is accepted |
| DrivesScanner.ProjectOf | drives_scanner.py:172-177 | A directory's record holds its name, its size and the date read from its name |
| DrivesScanner.ScanDirectories | drives_scanner.py:172-181 | One record per accepted child in iteration order: the i-th record holds the i-th accepted child's name, size and date |
| DrivesScanner.ScanDirectoriesRecords | drives_scanner.py:172-181 | Every accepted child has a record; every record comes from an accepted child; every record's date is the date of its name |
| DrivesScanner.ScanDirectoriesDistinctNames | drives_scanner.py:172-181 | When the listing names each child once, no two records of one drive share a project name |
| DrivesScanner.WithDriveProperties | drives_scanner.py:221 | One row per project, in order, each the project's record merged with the drive's properties |
| Catalog.MergeRecords | drives_scanner.py:221 | The row holds the project's three fields and the drive's three fields unchanged |
| Catalog.FromRecords | drives_scanner.py:222 | The frame holds the records as rows and has columns iff it has a record |
| DrivesScanner.DriveRowsMember | drives_scanner.py:217-221 | A row belongs to a drive's rows iff the drive is not blacklisted and the row is one of its directory records joined with its properties |
| DrivesScanner.ScanValidDrivesToDf | drives_scanner.py:214-222 | The table holds the rows of the external drives, in mountpoint order; it has columns iff it has a row |
| DrivesScanner.ScannedRowsConcat | drives_scanner.py:216-221 | Rows are grouped by drive in mountpoint order: scanning a then b concatenates their rows |
| DrivesScanner.ScannedRowsCount | drives_scanner.py:216-221 | The table has one row per accepted directory of each non-blacklisted drive |
| DrivesScanner.ScannedRowsOrigin | drives_scanner.py:216-221 | A row is in the table iff it merges a directory record of some non-blacklisted drive with that drive's own properties |
| DrivesScanner.ScanValidDrivesToDict | drives_scanner.py:252-260 | The map is built by inserting the non-blacklisted external drives in mountpoint order |
| DrivesScanner.ScannedDrivesKeys | drives_scanner.py:254-259 | The keys are exactly the names of the non-blacklisted drives; each value is the record of a drive with that name |
| DrivesScanner.LaterDriveReplacesEarlier | drives_scanner.py:259 | A name maps to the record of the last non-blacklisted drive with that name, with its project list (empty if it has no accepted directory) |
| SpreadsheetDocu.ApplyBlacklistOnDf | storage_gspread.py:86-89 | Fails iff the table has no columns; otherwise keeps, in order, exactly the rows naming neither a blacklisted drive nor a blacklisted directory, every copy of a duplicated row included |
| SpreadsheetDocu.ApplyBlacklistIdempotent | storage_gspread.py:86-89 | Filtering the filtered table changes nothing |
| Catalog.DriveNames | storage_gspread.py:110 | A name is a connected drive's name iff some scanned row carries it |
| SpreadsheetDocu.UpdateDocuOffline | storage_gspread.py:109-114 | Fails iff the scanned table has columns and the downloaded one does not. Otherwise the scanned rows form the tail. The prefix is, in order, exactly the downloaded rows of drives not in the scan, with every copy of a duplicated row, or all downloaded rows if the scan has no columns |
| SpreadsheetDocu.MergeWithItself | storage_gspread.py:109-134 | Merging a table into itself gives it back, so the upload equals the filtered table |
| SpreadsheetDocu.UpdateOnlineSpreadsheet | storage_gspread.py:130-134 | Fails iff the downloaded table has no columns. No uploaded row names a blacklisted drive or directory. A row is uploaded iff it passes the blacklists and is either scanned now or downloaded for a drive not scanned now |
| SpreadsheetDocu.UploadOrder | storage_gspread.py:131-133 | The uploaded rows are the surviving stale rows followed by the surviving scanned rows, each in original order; with no drive connected, they are the downloaded rows that pass the blacklists |
| SpreadsheetDocu.DropConnectedRows | storage_gspread.py:110-113 | Dropping the rows of connected drives from stale rows followed by scanned rows leaves exactly the stale rows |
| SpreadsheetDocu.UpdateIsIdempotent | storage_gspread.py:130-134 | Repeating the update with the same scan and blacklists on the uploaded table uploads the same table |
| SpreadsheetFormatter.Letter | storage_gspread.py:169 | `chr(ord('A') + position)` is a capital letter whose offset from `A` is the position |
| SpreadsheetFormatter.ColumnId | storage_gspread.py:166-169 | The column id is one or more capital letters |
| SpreadsheetFormatter.ColumnIdExamples | storage_gspread.py:158 | 0 → A, 1 → B, 25 → Z, 26 → AA, 27 → AB, 701 → ZZ, 702 → AAA |
| SpreadsheetFormatter.ColumnIdRoundTrip | storage_gspread.py:166-169 | Reading the letters back as a bijective base-26 numeral gives the position: the numbering is one-to-one |
| SpreadsheetFormatter.ColumnPositionRoundTrip | storage_gspread.py:166-169 | Every non-empty capital-letter id is the id of the position it names: the numbering is onto |
| SpreadsheetFormatter.ColumnIdInjective | storage_gspread.py:166-169 | Distinct positions get distinct column ids |
| SpreadsheetFormatter.RulesWithoutColumn | storage_gspread.py:199-203 | The kept rules are an ordered subsequence of the list and are exactly the rules whose first range does not span exactly the column, each kept as many times as it occurs |
| SpreadsheetFormatter.RulesWithoutColumnIdempotent | storage_gspread.py:199-203 | Removing the column's rules a second time removes nothing |
| SpreadsheetFormatter.ConditionalFormatRules.Remove | storage_gspread.py:202 | `list.remove` of a present rule deletes its first occurrence |
| SpreadsheetFormatter.ConditionalFormatRules.Append | storage_gspread.py:223 | `list.append` adds the rule at the end |
| Seqs.FilterStepDrop | storage_gspread.py:200-203 | While walking the copy, a rule that spans the column is still in the list, and removing its first occurrence removes exactly it |
| Seqs.FilterStepKeep | storage_gspread.py:200-202 | A rule that does not span the column stays in place |
| SpreadsheetFormatter.RemoveRulesByColumn | storage_gspread.py:199-204 | Afterwards the list holds exactly the rules not spanning exactly the column, in order; the same list object is returned |
| SpreadsheetFormatter.NatToString | storage_gspread.py:219 | The row number is written as a non-empty string of decimal digits, with no leading zero unless the number is 0 |
| SpreadsheetFormatter.NatToStringRoundTrip | storage_gspread.py:219 | Reading the digits `str(n)` writes back as a decimal numeral gives n |
| SpreadsheetFormatter.ColumnRange | storage_gspread.py:219 | The leading letters of the range are the column id, so the range starts in that column |
| SpreadsheetFormatter.ColumnRangeRows | storage_gspread.py:219 | The range ends at row max(990, number of data rows), written by `NatToString` and decoding to that number. It reaches the last data row, number of data rows + 1, iff the table has fewer than 990 rows |
| SpreadsheetFormatter.ColumnRangeExamples | storage_gspread.py:219 | The range reaches at least row 990: column A of 5 rows gives `A2:A990`; column AB of 1200 rows gives `AB2:AB1200` |
| SpreadsheetFormatter.LeadingLettersOfColumnId | storage_gspread.py:219 | The column read off the start of the range is the formatted column's id |
| SpreadsheetFormatter.RangeStartsAtColumn | storage_gspread.py:218-219 | The start column read back from the formatted range is the formatted column |
| SpreadsheetFormatter.TextEqRule | storage_gspread.py:171-184 | The rule spans exactly the one column the range's leading letters name, and matches the given text with the given colour over that range |
| SpreadsheetFormatter.ValueRules | storage_gspread.py:215-225 | One rule per distinct value: the i-th matches the i-th value in order of first appearance and takes colour i of as many colours as there are values |
| SpreadsheetFormatter.ColorUniqueCellsByColumn | storage_gspread.py:213-226 | The new rule list is the old rules not spanning the column, followed by one text-equality rule per distinct value |
| SpreadsheetFormatter.ValueRulesShape | storage_gspread.py:215-225 | One appended rule per distinct value, in order of first appearance. Each spans exactly the formatted column, over rows 2 to max(990, number of data rows), and matches its value |
| SpreadsheetFormatter.ReformattingIsIdempotent | storage_gspread.py:221-225 | Formatting a column a second time, on the rule list the first formatting produced, leaves that list unchanged |
| Seqs.Filter | storage_gspread.py:86-89 | The row mask keeps, in order, exactly the elements that pass, each as many times as it occurs |
| Seqs.Unique | storage_gspread.py:215 | The distinct values, each once, in order of first appearance |
| Seqs.FilterMap | drives_scanner.py:172-180 | The comprehension `[f(x) for x in s if p(x)]` yields, at each index, `f` of the element the filter keeps there |
| Seqs.RemoveFirst | storage_gspread.py:202 | Removing a present value shortens the list by one; an absent value leaves it unchanged |

## Left out

- Operating-system and library calls become inputs: `psutil.disk_partitions`, `win32api.GetVolumeInformation`, `GetDriveTypeW`, `shutil.disk_usage`, `Path.iterdir`, `Path.is_dir`.
- Failures of those calls are not modelled. In the program, `GetVolumeInformation`, `shutil.disk_usage` or `Path.iterdir` can raise, for example for a drive removed during the scan, and that aborts the whole scan (drives_scanner.py:89, 130, 178); the model assumes every call answers.
- `DrivesScanner.ScanValidDrivesToDict`: the result is an unordered map. A Python dict keeps a replaced key at the position of its first insertion, and that key order reaches the JSON file; the model does not state the key order.
- Fetched cells are assumed to equal the strings the scanner produces: the downloaded table and both blacklists hold drive and folder names as strings. In the program they come from `get_all_records()` (storage_gspread.py:57, 68), which by default turns numeric-looking cells into numbers. A drive named `1234` then downloads as the number 1234, so the `isin` mask at storage_gspread.py:112 never matches the scanned string `"1234"`, and its old rows are uploaded again beside the fresh ones. Likewise a blacklisted folder `2023` is read as a number and blocks neither drives_scanner.py:157 nor storage_gspread.py:88. Two properties of `SpreadsheetDocu.UpdateOnlineSpreadsheet` hold only under this assumption: a connected drive's downloaded rows never survive, and no blacklisted name is uploaded.
- `SpreadsheetFormatter.ReformattingIsIdempotent`: rules are assumed to read back from the sheet exactly as they were saved. In the program, a second formatting run reads the rules again (storage_gspread.py:213) instead of reusing the list built in memory. If the service omits an unset or zero start column index when it returns a rule, the rule's `startColumnIndex` is absent. The test at storage_gspread.py:200 then never matches, so the rules of column 0 would accumulate over runs. The model can represent an absent index, but it does not model the read-back.
- A sheet that holds only its header row downloads as a frame with no columns. An upload in which every row is blacklisted therefore makes the next `UpdateOnlineSpreadsheet` fail with `MissingColumn`. Uploading and downloading are not modelled, so `SpreadsheetDocu.UpdateIsIdempotent` passes the uploaded frame straight back in and does not show this.
- `get_dir_size` and `bytes_to_gb` are not modelled; sizes are given values in GB. This covers the directory walk, rounding to three decimals, and the -1 marker for unreadable directories.
- `get_external_drives` returns mountpoints, which the later calls re-query. The model passes each partition's OS answers along with it instead.
- Logging, the GUI (`gui_app.py`), the command-line entry point (`main.py`), the JSON storage (`storage_json.py`) and threading are not part of this model.
- The spreadsheet service is not modelled: fetching the sheet, `load_blacklist`, `_upload_docu`, `rules.save()` and `get_conditional_format_rules`. Their values are parameters or results.
- `apply_blacklist_online` only compares and re-uploads, and is not modelled.
- `generate_distinct_colors` computes floating-point HSV→RGB colours. It is not modelled; a rule records its colour as an index into the palette and the palette size.
- The formatting payload is not modelled: bold text, background colour, the `TEXT_EQ` condition object. `GridRange.from_a1_range` is modelled only through the range's starting column letters, and the rule spans that one column.
- `ColorUniqueCellsByColumn` takes the column's values and position as given. The `KeyError` for a column name the sheet lacks is not modelled.
- An existing rule with no ranges (`rule.ranges[0]` raising `IndexError`) is not modelled. Rules read back from the sheet always carry a range.
- `Seqs.RemoveFirst`: returns the list unchanged for an absent value, where Python raises `ValueError`. Its only caller, `ConditionalFormatRules.Remove`, requires presence, and `Seqs.FilterStepDrop` proves presence at the call in `RemoveRulesByColumn`.
- `DrivesScanner.IsWordChar` and `DrivesScanner.Lower` cover ASCII only. Python's `\w`, `\d` and `str.lower()` are Unicode-aware; non-ASCII letters and digits are treated as non-word and unchanged.
- `DrivesScanner.BaseName` splits on `/` only. It does not reproduce pathlib's normalisation of `.` components or Windows separators; it is used on POSIX only.
- Pandas index labels and the row renumbering by `ignore_index=True` are not modelled; a table is its ordered list of rows.

=== FILE: catalog.dfy ===
/**
 * The records the drives documentation is made of, shared by the scanner
 * (which produces them) and the spreadsheet code (which merges, filters and
 * formats them).
 */
module Catalog {
  import opened Wrappers

  /**
   * A size or capacity in GB as the program stores it. Its value is taken as
   * given (the conversion from bytes and the -1 "unscannable" marker are not
   * part of this model), so it is only ever copied, never computed with.
   */
  type Gigabytes = real

  /** One scanned top-level directory: the keys "project-name", "size", "date". */
  datatype ProjectRecord = ProjectRecord(projectName: string, size: Gigabytes, date: Option<string>)

  /** The keys "drive-name", "total-storage", "free-storage" of one drive. */
  datatype DriveProps = DriveProps(driveName: string, totalStorage: Gigabytes, freeStorage: Gigabytes)

  /** A drive in the nested form: its properties plus the key "projects". */
  datatype DriveRecord = DriveRecord(props: DriveProps, projects: seq<ProjectRecord>)

  /**
   * One row of the documentation table: a project record merged with the
   * properties of the drive it lives on. Only "drive-name" and
   * "project-name" are ever inspected; the other cells are carried along.
   */
  datatype Row = Row(
    projectName: string,
    size: Gigabytes,
    date: Option<string>,
    driveName: string,
    totalStorage: Gigabytes,
    freeStorage: Gigabytes)

  /** The row for project `p` on drive `d`: the dictionary union `p | d`. */
  function MergeRecords(p: ProjectRecord, d: DriveProps): (r: Row)
    ensures r.projectName == p.projectName && r.size == p.size && r.date == p.date
    ensures DriveProps(r.driveName, r.totalStorage, r.freeStorage) == d
  {
    Row(p.projectName, p.size, p.date, d.driveName, d.totalStorage, d.freeStorage)
  }

  /**
   * A pandas DataFrame of documentation rows. A DataFrame built from an empty
   * list of records has no columns at all, so selecting "drive-name" from it
   * raises a KeyError; `hasColumns` records whether the columns exist.
   */
  datatype Frame = Frame(hasColumns: bool, rows: seq<Row>)

  /** `pd.DataFrame(records)`: the columns exist exactly when there is a record. */
  function FromRecords(rows: seq<Row>): (f: Frame)
    ensures f.rows == rows
    ensures f.hasColumns <==> |rows| > 0
    ensures WellFormed(f)
  {
    Frame(rows != [], rows)
  }

  /** Every DataFrame the program builds: one holding rows also has the columns. */
  predicate WellFormed(f: Frame)
  {
    f.rows != [] ==> f.hasColumns
  }

  /** The distinct values of the "drive-name" column. */
  function DriveNames(rows: seq<Row>): (names: set<string>)
    ensures forall name :: name in names <==> exists i :: 0 <= i < |rows| && rows[i].driveName == name
  {
    set r | r in rows :: r.driveName
  }
}

=== FILE: drives_scanner.dfy ===
/**
 * Drive scanning: which mounted partitions count as external drives, which of
 * their top-level directories are documented, and how the scan results are
 * assembled into a flat table of rows or a nested map keyed by drive name.
 *
 * The operating system is not called: each partition arrives together with the
 * answers the OS gives about its mountpoint (volume label, drive-type code,
 * capacity and the list of its children), and `os.name` becomes a `Platform`.
 */
module DrivesScanner {
  import opened Wrappers
  import opened Seqs
  import opened Catalog

  /** `os.name == "nt"` selects the Windows branches; every other value the POSIX ones. */
  datatype Platform = Windows | Posix

  /**
   * A child of a mountpoint as `Path.iterdir` yields it: its name, whether it is a
   * directory, and the size the scanner records for it (already in GB).
   */
  datatype DirEntry = DirEntry(name: string, isDir: bool, size: Gigabytes)

  /**
   * A partition reported by `psutil.disk_partitions`, with what the OS answers
   * about its mountpoint.
   */
  datatype Partition = Partition(
    mountpoint: string,
    opts: string,
    fstype: string,
    volumeLabel: string,      // GetVolumeInformation(mountpoint)[0], consulted on Windows only
    driveTypeCode: int,       // GetDriveTypeW(mountpoint), consulted on Windows only
    totalStorage: Gigabytes,  // shutil.disk_usage(mountpoint).total
    freeStorage: Gigabytes,   // shutil.disk_usage(mountpoint).free
    children: seq<DirEntry>)  // Path(mountpoint).iterdir(), in iteration order

  // ---------------------------------------------------------------------------
  // Date in a directory name: re.fullmatch(r"\d{4}\W\d{2}\W\d{2}", name[:10])
  // ---------------------------------------------------------------------------

  /** The regular-expression class `\d`. */
  predicate IsDigit(c: char)
  {
    '0' <= c <= '9'
  }

  /** The regular-expression class `\w`: letters, digits and the underscore. */
  predicate IsWordChar(c: char)
  {
    IsDigit(c) || 'a' <= c <= 'z' || 'A' <= c <= 'Z' || c == '_'
  }

  /** A one-character pattern element: `\d` or `\W`. */
  datatype CharClass = Digit | NonWord

  predicate InClass(c: char, k: CharClass)
  {
    match k
    case Digit => IsDigit(c)
    case NonWord => !IsWordChar(c)
  }

  /** The pattern `\d{4}\W\d{2}\W\d{2}`, one class per character. */
  const DATE_PATTERN: seq<CharClass> :=
    [Digit, Digit, Digit, Digit, NonWord, Digit, Digit, NonWord, Digit, Digit]

  /** `re.fullmatch` of a pattern made of single-character classes. */
  function FullMatch(s: string, pattern: seq<CharClass>): (r: bool)
    ensures r <==> |s| == |pattern| && forall i :: 0 <= i < |s| ==> InClass(s[i], pattern[i])
  {
    if |s| == 0 || |pattern| == 0 then |s| == |pattern|
    else InClass(s[0], pattern[0]) && FullMatch(s[1..], pattern[1..])
  }

  /** Python's slice `s[:n]`. */
  function Take(s: string, n: nat): (r: string)
    ensures |r| == if |s| < n then |s| else n
    ensures r == s[..|r|]
  {
    if |s| <= n then s else s[..n]
  }

  /** The first ten characters of `d` read as four digits, a separator, two digits, a separator, two digits. */
  predicate LooksLikeDate(d: string)
    requires |d| >= 10
  {
    && IsDigit(d[0]) && IsDigit(d[1]) && IsDigit(d[2]) && IsDigit(d[3])
    && !IsWordChar(d[4])
    && IsDigit(d[5]) && IsDigit(d[6])
    && !IsWordChar(d[7])
    && IsDigit(d[8]) && IsDigit(d[9])
  }

  /** `get_date_from_dir_name`: the leading date of a directory name, if it has one. */
  function DateFromDirName(dirName: string): (r: Option<string>)
    ensures r.Some? <==> |dirName| >= 10 && LooksLikeDate(dirName)
    ensures r.Some? ==> r.value == dirName[..10]
  {
    var head := Take(dirName, 10);
    if FullMatch(head, DATE_PATTERN) then Some(head) else None
  }

  lemma DateExamples()
    ensures DateFromDirName("2023-01-15_trip") == Some("2023-01-15")
    ensures DateFromDirName("2023-01-15-x") == Some("2023-01-15")
    ensures DateFromDirName("2023_01_15x") == None
    ensures DateFromDirName("not-a-date-dir") == None
    ensures DateFromDirName("2023-01-1") == None
  {
    assert LooksLikeDate("2023-01-15_trip") && "2023-01-15_trip"[..10] == "2023-01-15";
    assert LooksLikeDate("2023-01-15-x") && "2023-01-15-x"[..10] == "2023-01-15";
    assert "2023_01_15x"[4] == '_';
    assert !IsDigit("not-a-date-dir"[0]);
  }

  // ---------------------------------------------------------------------------
  // External-drive classification
  // ---------------------------------------------------------------------------

  function LowerChar(c: char): char
  {
    if 'A' <= c <= 'Z' then (c as int + 32) as char else c
  }

  /** `str.lower()`: capital letters become small letters, every other character stays. */
  function Lower(s: string): (r: string)
    ensures |r| == |s|
    ensures forall i :: 0 <= i < |r| ==> !('A' <= r[i] <= 'Z')
    ensures forall i :: 0 <= i < |s| && !('A' <= s[i] <= 'Z') ==> r[i] == s[i]
    ensures forall i :: 0 <= i < |s| && 'A' <= s[i] <= 'Z' ==> r[i] as int - 'a' as int == s[i] as int - 'A' as int
  {
    seq(|s|, i requires 0 <= i < |s| => LowerChar(s[i]))
  }

  /** `sub in s` for strings: `sub` occurs at some position of `s`. */
  predicate Contains(s: string, sub: string)
    ensures Contains(s, sub) <==> exists i :: 0 <= i <= |s| && sub <= s[i..]
    decreases |s|
  {
    assert s[0..] == s;
    assert forall i :: 0 < i <= |s| ==> s[1..][i - 1..] == s[i..];
    sub <= s || (|s| > 0 && Contains(s[1..], sub))
  }

  /** An occurrence at any position is found by `Contains`. */
  lemma {:induction false} ContainsAt(s: string, sub: string, i: nat)
    requires i + |sub| <= |s| && s[i..i + |sub|] == sub
    ensures Contains(s, sub)
  {
    if i > 0 {
      assert s[1..][i - 1..i - 1 + |sub|] == s[i..i + |sub|];
      ContainsAt(s[1..], sub, i - 1);
    }
  }

  /** A string shorter than `sub` does not contain it. */
  lemma {:induction false} TooShortToContain(s: string, sub: string)
    requires |s| < |sub|
    ensures !Contains(s, sub)
  {
    if |s| > 0 {
      TooShortToContain(s[1..], sub);
    }
  }

  const DRIVE_REMOVABLE := 2
  const DRIVE_FIXED := 3

  /** The mount roots under which POSIX systems mount external media. */
  const EXTERNAL_MOUNT_ROOTS: seq<string> := ["/media", "/mnt", "/Volumes"]

  /** `s.startswith(prefixes)` with a tuple of prefixes. */
  predicate StartsWithAny(s: string, prefixes: seq<string>)
    ensures StartsWithAny(s, prefixes) <==>
              exists i :: 0 <= i < |prefixes| && |prefixes[i]| <= |s| && s[..|prefixes[i]|] == prefixes[i]
  {
    exists i :: 0 <= i < |prefixes| && prefixes[i] <= s
  }

  /**
   * `is_external_drive`. A partition mounted from an optical drive or without a
   * filesystem type is never external; `ExternalDriveByPlatform` gives the
   * per-platform tests for the others.
   */
  predicate IsExternalDrive(p: Partition, platform: Platform)
    ensures IsExternalDrive(p, platform) ==> !Contains(Lower(p.opts), "cdrom") && p.fstype != ""
    ensures IsExternalDrive(p, platform) && platform == Windows ==> p.volumeLabel != ""
  {
    if Contains(Lower(p.opts), "cdrom") then false
    else if p.fstype == "" then false
    else
      match platform
      case Windows =>
        if p.volumeLabel == "" then false
        else p.driveTypeCode == DRIVE_REMOVABLE || p.driveTypeCode == DRIVE_FIXED
      case Posix => StartsWithAny(p.mountpoint, EXTERNAL_MOUNT_ROOTS)
  }

  /** An optical drive is never external, whatever the letter case of "cdrom" in its options. */
  lemma {:induction false} CdromIsNeverExternal(p: Partition, platform: Platform, i: nat)
    requires i + 5 <= |p.opts| && Lower(p.opts[i..i + 5]) == "cdrom"
    ensures !IsExternalDrive(p, platform)
  {
    assert Lower(p.opts)[i..i + 5] == Lower(p.opts[i..i + 5]);
    ContainsAt(Lower(p.opts), "cdrom", i);
  }

  /** The heuristics per platform, once the CD-drive and missing-filesystem rejections are passed. */
  lemma ExternalDriveByPlatform(p: Partition)
    requires !Contains(Lower(p.opts), "cdrom") && p.fstype != ""
    ensures IsExternalDrive(p, Windows) <==>
              p.volumeLabel != "" && (p.driveTypeCode == DRIVE_REMOVABLE || p.driveTypeCode == DRIVE_FIXED)
    ensures IsExternalDrive(p, Posix) <==>
              "/media" <= p.mountpoint || "/mnt" <= p.mountpoint || "/Volumes" <= p.mountpoint
  {
    if "/media" <= p.mountpoint { assert EXTERNAL_MOUNT_ROOTS[0] <= p.mountpoint; }
    if "/mnt" <= p.mountpoint { assert EXTERNAL_MOUNT_ROOTS[1] <= p.mountpoint; }
    if "/Volumes" <= p.mountpoint { assert EXTERNAL_MOUNT_ROOTS[2] <= p.mountpoint; }
  }

  /** The POSIX test is a plain string prefix, not a path-component test: "/mntX" passes. */
  lemma MountRootIsPlainPrefix(p: Partition)
    requires p.opts == "rw" && p.fstype == "ext4" && p.mountpoint == "/mntX"
    ensures IsExternalDrive(p, Posix)
  {
    TooShortToContain(Lower(p.opts), "cdrom");
    assert EXTERNAL_MOUNT_ROOTS[1] <= p.mountpoint;
  }

  /** `get_external_drives`: the external partitions in the order psutil lists them. */
  function ExternalDrives(partitions: seq<Partition>, platform: Platform): (r: seq<Partition>)
    ensures forall p :: p in r <==> p in partitions && IsExternalDrive(p, platform)
    ensures IsSubsequence(r, partitions)
    ensures forall p {:trigger multiset(r)[p]} ::
              multiset(r)[p] == if IsExternalDrive(p, platform) then multiset(partitions)[p] else 0
  {
    FilterIsSubsequence(partitions, (p: Partition) => IsExternalDrive(p, platform));
    Filter(partitions, (p: Partition) => IsExternalDrive(p, platform))
  }

  // ---------------------------------------------------------------------------
  // Drive properties and the drive blacklist
  // ---------------------------------------------------------------------------

  /** Drops the trailing separators of a path. */
  function StripTrailingSlashes(path: string): (r: string)
    ensures |r| <= |path| && r == path[..|r|]
    ensures |r| > 0 ==> r[|r| - 1] != '/'
  {
    if |path| > 0 && path[|path| - 1] == '/' then StripTrailingSlashes(path[..|path| - 1])
    else path
  }

  /** The text after the last separator. */
  function LastSegment(path: string): (r: string)
    ensures |r| <= |path| && r == path[|path| - |r|..]
    ensures '/' !in r
  {
    if |path| == 0 || path[|path| - 1] == '/' then []
    else
      var r := LastSegment(path[..|path| - 1]);
      assert path[|path| - 1 - |r|..] == path[..|path| - 1][|path| - 1 - |r|..] + [path[|path| - 1]];
      r + [path[|path| - 1]]
  }

  /** `Path(path).name`: the final component of the path. */
  function BaseName(path: string): (r: string)
    ensures '/' !in r
  {
    LastSegment(StripTrailingSlashes(path))
  }

  /** The text after the last separator of `dir/name` is `name`. */
  lemma {:induction false} LastSegmentOfChild(dir: string, name: string)
    requires '/' !in name
    ensures LastSegment(dir + "/" + name) == name
  {
    var path := dir + "/" + name;
    if |name| == 0 {
      assert path == dir + "/";
    } else {
      var n := |name| - 1;
      var shorter := dir + "/" + name[..n];
      assert path[..|path| - 1] == shorter;
      assert path[|path| - 1] == name[n];
      assert name[n] in name;
      LastSegmentOfChild(dir, name[..n]);
      assert LastSegment(path) == LastSegment(shorter) + [name[n]];
      assert name[..n] + [name[n]] == name;
    }
  }

  /** The final component of `dir/name`, with or without a trailing separator, is `name`. */
  lemma BaseNameOfChild(dir: string, name: string)
    requires '/' !in name && |name| > 0
    ensures BaseName(dir + "/" + name) == name
    ensures BaseName(dir + "/" + name + "/") == name
  {
    var path := dir + "/" + name;
    assert path[|path| - 1] == name[|name| - 1];
    assert name[|name| - 1] in name;
    assert (path + "/")[..|path|] == path;
    LastSegmentOfChild(dir, name);
  }

  lemma BaseNameExamples()
    ensures BaseName("/media/usb") == "usb"
    ensures BaseName("/Volumes/Backup/") == "Backup"
    ensures BaseName("/") == ""
  {
    assert "/media/usb" == "/media" + "/" + "usb";
    BaseNameOfChild("/media", "usb");
    assert "/Volumes/Backup/" == "/Volumes" + "/" + "Backup" + "/";
    BaseNameOfChild("/Volumes", "Backup");
    assert "/"[..0] == "";
  }

  /**
   * `get_drive_properties`: the drive's name and capacity. On Windows the name
   * is the volume label; elsewhere it is the last component of the mountpoint,
   * which contains no separator.
   */
  function DriveProperties(p: Partition, platform: Platform): (r: DriveProps)
    ensures r.totalStorage == p.totalStorage && r.freeStorage == p.freeStorage
    ensures platform == Windows ==> r.driveName == p.volumeLabel
    ensures platform == Posix ==> r.driveName == BaseName(p.mountpoint) && '/' !in r.driveName
  {
    var driveName := match platform
      case Windows => p.volumeLabel
      case Posix => BaseName(p.mountpoint);
    DriveProps(driveName, p.totalStorage, p.freeStorage)
  }

  /** `is_blacklisted_drive`: the volume label on Windows, the whole mountpoint string elsewhere. */
  predicate IsBlacklistedDrive(p: Partition, platform: Platform, blacklistDrives: set<string>)
    ensures platform == Windows ==>
              (IsBlacklistedDrive(p, platform, blacklistDrives) <==> DriveProperties(p, platform).driveName in blacklistDrives)
    ensures platform == Posix ==> (IsBlacklistedDrive(p, platform, blacklistDrives) <==> p.mountpoint in blacklistDrives)
  {
    match platform
    case Windows => p.volumeLabel in blacklistDrives
    case Posix => p.mountpoint in blacklistDrives
  }

  /**
   * On POSIX a blacklist of drive names (documented names never contain '/')
   * blacklists no mountpoint that contains '/': every such drive is scanned,
   * even one whose documented name is blacklisted.
   */
  lemma PosixBlacklistMissesDriveNames(p: Partition, blacklistDrives: set<string>)
    requires '/' in p.mountpoint
    requires forall name :: name in blacklistDrives ==> '/' !in name
    ensures !IsBlacklistedDrive(p, Posix, blacklistDrives)
  {
  }

  /** A concrete instance: "/media/usb" is scanned under the name "usb" although "usb" is blacklisted. */
  lemma PosixBlacklistExample(p: Partition)
    requires p.mountpoint == "/media/usb"
    ensures !IsBlacklistedDrive(p, Posix, {"usb"})
    ensures DriveProperties(p, Posix).driveName in {"usb"}
  {
    BaseNameExamples();
  }

  // ---------------------------------------------------------------------------
  // Directory scan
  // ---------------------------------------------------------------------------

  /** `is_valid_directory`: a directory, not hidden (no leading '.'), not blacklisted. */
  predicate IsValidDirectory(e: DirEntry, blacklistDirectories: set<string>)
    ensures IsValidDirectory(e, blacklistDirectories) <==>
              e.isDir && (|e.name| == 0 || e.name[0] != '.') && e.name !in blacklistDirectories
  {
    e.isDir && !("." <= e.name) && e.name !in blacklistDirectories
  }

  lemma ValidDirectoryExamples(blacklistDirectories: set<string>)
    requires "photos" in blacklistDirectories && "2024-05-01 holiday" !in blacklistDirectories
    ensures !IsValidDirectory(DirEntry(".git", true, 0.0), blacklistDirectories)
    ensures !IsValidDirectory(DirEntry("photos", true, 0.0), blacklistDirectories)
    ensures !IsValidDirectory(DirEntry("2024-05-01 holiday", false, 0.0), blacklistDirectories)
    ensures IsValidDirectory(DirEntry("2024-05-01 holiday", true, 0.0), blacklistDirectories)
  {
    assert "2024-05-01 holiday"[0] != '.';
  }

  /** The record of one scanned directory. */
  function ProjectOf(e: DirEntry): (r: ProjectRecord)
    ensures r.projectName == e.name && r.size == e.size
    ensures r.date == DateFromDirName(e.name)
  {
    ProjectRecord(e.name, e.size, DateFromDirName(e.name))
  }

  function ValidIn(blacklistDirectories: set<string>): DirEntry -> bool
  {
    (e: DirEntry) => IsValidDirectory(e, blacklistDirectories)
  }

  /** The children that `is_valid_directory` accepts, in iteration order. */
  function EligibleChildren(children: seq<DirEntry>, blacklistDirectories: set<string>): seq<DirEntry>
  {
    Filter(children, ValidIn(blacklistDirectories))
  }

  /** `scan_directories`: one record per eligible child, in iteration order. */
  function ScanDirectories(children: seq<DirEntry>, blacklistDirectories: set<string>): (r: seq<ProjectRecord>)
    ensures |r| == |EligibleChildren(children, blacklistDirectories)|
    ensures forall i :: 0 <= i < |r| ==> r[i] == ProjectOf(EligibleChildren(children, blacklistDirectories)[i])
  {
    FilterMap(children, ValidIn(blacklistDirectories), ProjectOf)
  }

  /**
   * A directory lists each name once, so the projects of one drive have
   * distinct names: a drive's "projects" list never names a folder twice.
   */
  lemma ScanDirectoriesDistinctNames(children: seq<DirEntry>, blacklistDirectories: set<string>)
    requires forall i, j :: 0 <= i < j < |children| ==> children[i].name != children[j].name
    ensures var r := ScanDirectories(children, blacklistDirectories);
            forall i, j :: 0 <= i < j < |r| ==> r[i].projectName != r[j].projectName
  {
    var eligible := EligibleChildren(children, blacklistDirectories);
    var nameOf := (e: DirEntry) => e.name;
    FilterKeepsKeysDistinct(children, ValidIn(blacklistDirectories), nameOf);
    var r := ScanDirectories(children, blacklistDirectories);
    forall i, j | 0 <= i < j < |r|
      ensures r[i].projectName != r[j].projectName
    {
      assert nameOf(eligible[i]) != nameOf(eligible[j]);
      assert r[i].projectName == eligible[i].name;
      assert r[j].projectName == eligible[j].name;
    }
  }

  /** Every eligible child has a record, and every record is an eligible child's, dated by its name. */
  lemma ScanDirectoriesRecords(children: seq<DirEntry>, blacklistDirectories: set<string>)
    ensures forall e :: e in children && IsValidDirectory(e, blacklistDirectories) ==>
              ProjectOf(e) in ScanDirectories(children, blacklistDirectories)
    ensures forall pr :: pr in ScanDirectories(children, blacklistDirectories) ==>
              exists e :: e in children && IsValidDirectory(e, blacklistDirectories) && pr == ProjectOf(e)
    ensures forall pr :: pr in ScanDirectories(children, blacklistDirectories) ==>
              pr.date == DateFromDirName(pr.projectName)
  {
    var eligible := EligibleChildren(children, blacklistDirectories);
    var r := ScanDirectories(children, blacklistDirectories);
    forall e | e in children && IsValidDirectory(e, blacklistDirectories)
      ensures ProjectOf(e) in r
    {
      assert e in eligible;
      var i :| 0 <= i < |eligible| && eligible[i] == e;
      assert r[i] == ProjectOf(e);
    }
    forall pr | pr in r
      ensures exists e :: e in children && IsValidDirectory(e, blacklistDirectories) && pr == ProjectOf(e)
    {
      var i :| 0 <= i < |r| && r[i] == pr;
      assert eligible[i] in eligible;
    }
  }

  // ---------------------------------------------------------------------------
  // The flat table: scan_valid_drives_to_df
  // ---------------------------------------------------------------------------

  /** `[directory | drive_properties for directory in directories_properties]`. */
  function WithDriveProperties(projects: seq<ProjectRecord>, d: DriveProps): (r: seq<Row>)
    ensures |r| == |projects|
    ensures forall i :: 0 <= i < |r| ==> r[i].projectName == projects[i].projectName && r[i].driveName == d.driveName
    ensures forall i :: 0 <= i < |r| ==> r[i] == MergeRecords(projects[i], d)
  {
    seq(|projects|, i requires 0 <= i < |projects| => MergeRecords(projects[i], d))
  }

  /** The rows one mountpoint adds to the table. */
  function DriveRows(p: Partition, platform: Platform, blacklistDrives: set<string>,
                     blacklistDirectories: set<string>): seq<Row>
  {
    if IsBlacklistedDrive(p, platform, blacklistDrives) then []
    else WithDriveProperties(ScanDirectories(p.children, blacklistDirectories), DriveProperties(p, platform))
  }

  function DriveRowsOf(platform: Platform, blacklistDrives: set<string>,
                      blacklistDirectories: set<string>): Partition -> seq<Row>
  {
    (p: Partition) => DriveRows(p, platform, blacklistDrives, blacklistDirectories)
  }

  /** The rows of the mountpoints `mounts`, drive after drive. */
  function ScannedRows(mounts: seq<Partition>, platform: Platform, blacklistDrives: set<string>,
                       blacklistDirectories: set<string>): seq<Row>
  {
    FlatMap(mounts, DriveRowsOf(platform, blacklistDrives, blacklistDirectories))
  }

  /** `scan_valid_drives_to_df`. */
  method ScanValidDrivesToDf(partitions: seq<Partition>, platform: Platform,
                             blacklistDrives: set<string>, blacklistDirectories: set<string>)
    returns (df: Frame)
    ensures df == FromRecords(ScannedRows(ExternalDrives(partitions, platform), platform,
                                          blacklistDrives, blacklistDirectories))
  {
    var mountpoints := ExternalDrives(partitions, platform);
    var directories: seq<Row> := [];
    for i := 0 to |mountpoints|
      invariant directories == ScannedRows(mountpoints[..i], platform, blacklistDrives, blacklistDirectories)
    {
      var mountpoint := mountpoints[i];
      FlatMapStep(mountpoints, i, DriveRowsOf(platform, blacklistDrives, blacklistDirectories));
      assert DriveRowsOf(platform, blacklistDrives, blacklistDirectories)(mountpoint)
             == DriveRows(mountpoint, platform, blacklistDrives, blacklistDirectories);
      if !IsBlacklistedDrive(mountpoint, platform, blacklistDrives) {
        var driveProperties := DriveProperties(mountpoint, platform);
        var directoriesProperties := ScanDirectories(mountpoint.children, blacklistDirectories);
        directories := directories + WithDriveProperties(directoriesProperties, driveProperties);
      }
    }
    assert mountpoints[..|mountpoints|] == mountpoints;
    df := FromRecords(directories);
  }

  /** Rows are grouped per drive in mountpoint order: scanning `a` then `b` concatenates their tables. */
  lemma ScannedRowsConcat(a: seq<Partition>, b: seq<Partition>, platform: Platform,
                          blacklistDrives: set<string>, blacklistDirectories: set<string>)
    ensures ScannedRows(a + b, platform, blacklistDrives, blacklistDirectories)
            == ScannedRows(a, platform, blacklistDrives, blacklistDirectories)
               + ScannedRows(b, platform, blacklistDrives, blacklistDirectories)
  {
    FlatMapConcat(a, b, DriveRowsOf(platform, blacklistDrives, blacklistDirectories));
  }

  /** The number of eligible directories on the drives that are not blacklisted. */
  ghost function EligibleCount(mounts: seq<Partition>, platform: Platform, blacklistDrives: set<string>,
                               blacklistDirectories: set<string>): nat
  {
    if |mounts| == 0 then 0
    else
      var p := mounts[|mounts| - 1];
      EligibleCount(mounts[..|mounts| - 1], platform, blacklistDrives, blacklistDirectories)
      + (if IsBlacklistedDrive(p, platform, blacklistDrives) then 0
         else |EligibleChildren(p.children, blacklistDirectories)|)
  }

  /** One row per eligible directory of each non-blacklisted drive, and no other row. */
  lemma {:induction false} ScannedRowsCount(mounts: seq<Partition>, platform: Platform,
                                            blacklistDrives: set<string>, blacklistDirectories: set<string>)
    ensures |ScannedRows(mounts, platform, blacklistDrives, blacklistDirectories)|
            == EligibleCount(mounts, platform, blacklistDrives, blacklistDirectories)
  {
    if |mounts| > 0 {
      var n := |mounts| - 1;
      ScannedRowsCount(mounts[..n], platform, blacklistDrives, blacklistDirectories);
      FlatMapStep(mounts, n, DriveRowsOf(platform, blacklistDrives, blacklistDirectories));
      assert mounts[..n + 1] == mounts;
    }
  }

  /** The rows of one drive: its eligible directories, each with the drive's own properties. */
  lemma DriveRowsMember(p: Partition, platform: Platform, blacklistDrives: set<string>,
                        blacklistDirectories: set<string>, row: Row)
    ensures row in DriveRows(p, platform, blacklistDrives, blacklistDirectories) <==>
              && !IsBlacklistedDrive(p, platform, blacklistDrives)
              && exists pr :: pr in ScanDirectories(p.children, blacklistDirectories)
                              && row == MergeRecords(pr, DriveProperties(p, platform))
  {
    WithDrivePropertiesMember(ScanDirectories(p.children, blacklistDirectories), DriveProperties(p, platform), row);
  }

  /** A merged row is some project's record joined with the drive's properties. */
  lemma WithDrivePropertiesMember(projects: seq<ProjectRecord>, d: DriveProps, row: Row)
    ensures row in WithDriveProperties(projects, d) <==> exists pr :: pr in projects && row == MergeRecords(pr, d)
  {
    var rows := WithDriveProperties(projects, d);
    if row in rows {
      var k :| 0 <= k < |rows| && rows[k] == row;
      assert projects[k] in projects;
    }
    if exists pr :: pr in projects && row == MergeRecords(pr, d) {
      var pr :| pr in projects && row == MergeRecords(pr, d);
      var k :| 0 <= k < |projects| && projects[k] == pr;
      assert rows[k] == row;
    }
  }

  /**
   * Every row comes from an eligible directory of a non-blacklisted drive and
   * carries that drive's own name and capacity; conversely every such
   * directory has its row.
   */
  lemma ScannedRowsOrigin(mounts: seq<Partition>, platform: Platform,
                          blacklistDrives: set<string>, blacklistDirectories: set<string>, row: Row)
    ensures row in ScannedRows(mounts, platform, blacklistDrives, blacklistDirectories) <==>
              exists j, pr :: 0 <= j < |mounts| && !IsBlacklistedDrive(mounts[j], platform, blacklistDrives)
                              && pr in ScanDirectories(mounts[j].children, blacklistDirectories)
                              && row == MergeRecords(pr, DriveProperties(mounts[j], platform))
  {
    FlatMapMember(mounts, DriveRowsOf(platform, blacklistDrives, blacklistDirectories), row);
    forall j | 0 <= j < |mounts|
      ensures row in DriveRows(mounts[j], platform, blacklistDrives, blacklistDirectories) <==>
                && !IsBlacklistedDrive(mounts[j], platform, blacklistDrives)
                && exists pr :: pr in ScanDirectories(mounts[j].children, blacklistDirectories)
                                && row == MergeRecords(pr, DriveProperties(mounts[j], platform))
    {
      DriveRowsMember(mounts[j], platform, blacklistDrives, blacklistDirectories, row);
    }
  }

  // ---------------------------------------------------------------------------
  // The nested map: scan_valid_drives_to_dict
  // ---------------------------------------------------------------------------

  /** A drive's properties with its "projects" list. */
  function DriveRecordOf(p: Partition, platform: Platform, blacklistDirectories: set<string>): DriveRecord
  {
    DriveRecord(DriveProperties(p, platform), ScanDirectories(p.children, blacklistDirectories))
  }

  function NotBlacklistedDrive(platform: Platform, blacklistDrives: set<string>): Partition -> bool
  {
    (p: Partition) => !IsBlacklistedDrive(p, platform, blacklistDrives)
  }

  function DriveNameOf(platform: Platform): Partition -> string
  {
    (p: Partition) => DriveProperties(p, platform).driveName
  }

  function DriveRecordFor(platform: Platform, blacklistDirectories: set<string>): Partition -> DriveRecord
  {
    (p: Partition) => DriveRecordOf(p, platform, blacklistDirectories)
  }

  /** The map after inserting the non-blacklisted mountpoints of `mounts` one after the other, keyed by drive name. */
  function ScannedDrives(mounts: seq<Partition>, platform: Platform, blacklistDrives: set<string>,
                         blacklistDirectories: set<string>): map<string, DriveRecord>
  {
    InsertAll(mounts, NotBlacklistedDrive(platform, blacklistDrives), DriveNameOf(platform),
              DriveRecordFor(platform, blacklistDirectories))
  }

  /** `scan_valid_drives_to_dict`. */
  method ScanValidDrivesToDict(partitions: seq<Partition>, platform: Platform,
                               blacklistDrives: set<string>, blacklistDirectories: set<string>)
    returns (drives: map<string, DriveRecord>)
    ensures drives == ScannedDrives(ExternalDrives(partitions, platform), platform,
                                    blacklistDrives, blacklistDirectories)
  {
    var mountpoints := ExternalDrives(partitions, platform);
    drives := map[];
    for i := 0 to |mountpoints|
      invariant drives == ScannedDrives(mountpoints[..i], platform, blacklistDrives, blacklistDirectories)
    {
      var mountpoint := mountpoints[i];
      InsertAllStep(mountpoints, i, NotBlacklistedDrive(platform, blacklistDrives), DriveNameOf(platform),
                    DriveRecordFor(platform, blacklistDirectories));
      assert NotBlacklistedDrive(platform, blacklistDrives)(mountpoint)
             == !IsBlacklistedDrive(mountpoint, platform, blacklistDrives);
      if !IsBlacklistedDrive(mountpoint, platform, blacklistDrives) {
        var driveProperties := DriveProperties(mountpoint, platform);
        var record := DriveRecord(driveProperties, ScanDirectories(mountpoint.children, blacklistDirectories));
        assert DriveNameOf(platform)(mountpoint) == driveProperties.driveName;
        assert DriveRecordFor(platform, blacklistDirectories)(mountpoint) == record;
        drives := drives[driveProperties.driveName := record];
      }
    }
    assert mountpoints[..|mountpoints|] == mountpoints;
  }

  /**
   * The keys are exactly the names of the non-blacklisted drives, and each
   * value describes the drive named by its key.
   */
  lemma ScannedDrivesKeys(mounts: seq<Partition>, platform: Platform,
                          blacklistDrives: set<string>, blacklistDirectories: set<string>)
    ensures forall name :: name in ScannedDrives(mounts, platform, blacklistDrives, blacklistDirectories) <==>
              exists j :: 0 <= j < |mounts| && !IsBlacklistedDrive(mounts[j], platform, blacklistDrives)
                          && DriveProperties(mounts[j], platform).driveName == name
    ensures forall name :: name in ScannedDrives(mounts, platform, blacklistDrives, blacklistDirectories) ==>
              ScannedDrives(mounts, platform, blacklistDrives, blacklistDirectories)[name].props.driveName == name
  {
    forall name: string
      ensures name in ScannedDrives(mounts, platform, blacklistDrives, blacklistDirectories) <==>
                exists j :: 0 <= j < |mounts| && !IsBlacklistedDrive(mounts[j], platform, blacklistDrives)
                            && DriveProperties(mounts[j], platform).driveName == name
      ensures name in ScannedDrives(mounts, platform, blacklistDrives, blacklistDirectories) ==>
                ScannedDrives(mounts, platform, blacklistDrives, blacklistDirectories)[name].props.driveName == name
    {
      InsertAllKeys(mounts, NotBlacklistedDrive(platform, blacklistDrives), DriveNameOf(platform),
                    DriveRecordFor(platform, blacklistDirectories), name);
    }
  }

  /**
   * The value under a drive's name is that of the last non-blacklisted
   * mountpoint with that name: a later mountpoint replaces an earlier one, and
   * a drive without eligible directories is present with an empty list.
   */
  lemma LaterDriveReplacesEarlier(mounts: seq<Partition>, platform: Platform,
                                  blacklistDrives: set<string>, blacklistDirectories: set<string>, j: nat)
    requires j < |mounts| && !IsBlacklistedDrive(mounts[j], platform, blacklistDrives)
    requires forall k :: j < k < |mounts| ==>
               IsBlacklistedDrive(mounts[k], platform, blacklistDrives)
               || DriveProperties(mounts[k], platform).driveName != DriveProperties(mounts[j], platform).driveName
    ensures var drives := ScannedDrives(mounts, platform, blacklistDrives, blacklistDirectories);
            var name := DriveProperties(mounts[j], platform).driveName;
            name in drives && drives[name] == DriveRecordOf(mounts[j], platform, blacklistDirectories)
  {
    InsertAllLastWins(mounts, NotBlacklistedDrive(platform, blacklistDrives), DriveNameOf(platform),
                      DriveRecordFor(platform, blacklistDirectories), j);
  }
}

=== FILE: seqs.dfy ===
/**
 * Sequence operations shared by the scanner and the spreadsheet code: the
 * filtering comprehension `[x for x in s if p(x)]`, Python's `list.remove`
 * and pandas' `Series.unique`, with the facts the rest of the model uses.
 */
module Seqs {

  /** The elements of `s` that satisfy `p`, in their original order. */
  function Filter<T(!new)>(s: seq<T>, p: T -> bool): (r: seq<T>)
    ensures |r| <= |s|
    ensures forall i :: 0 <= i < |r| ==> p(r[i])
    ensures forall x {:trigger x in r} :: x in r <==> x in s && p(x)
    ensures forall x {:trigger multiset(r)[x]} :: multiset(r)[x] == if p(x) then multiset(s)[x] else 0
  {
    if |s| == 0 then []
    else
      assert s == [s[0]] + s[1..];
      if p(s[0]) then [s[0]] + Filter(s[1..], p)
      else Filter(s[1..], p)
  }

  /** The comprehension `[f(x) for x in s if p(x)]`: `f` applied to the elements that `Filter` keeps. */
  function FilterMap<T(!new), U>(s: seq<T>, p: T -> bool, f: T -> U): (r: seq<U>)
    ensures |r| == |Filter(s, p)|
    ensures forall i :: 0 <= i < |r| ==> r[i] == f(Filter(s, p)[i])
  {
    if |s| == 0 then []
    else
      var rest := FilterMap(s[1..], p, f);
      if p(s[0]) then [f(s[0])] + rest else rest
  }

  /** `r` is obtained from `s` by deleting elements, without reordering the rest. */
  ghost predicate IsSubsequence<T>(r: seq<T>, s: seq<T>)
  {
    if |r| == 0 then true
    else if |s| == 0 then false
    else if r[0] == s[0] then IsSubsequence(r[1..], s[1..])
    else IsSubsequence(r, s[1..])
  }

  /** No element occurs twice. */
  ghost predicate Distinct<T>(s: seq<T>)
  {
    forall i, j :: 0 <= i < j < |s| ==> s[i] != s[j]
  }

  /** The position of the first occurrence of `x` in `s`. */
  ghost function FirstIndex<T>(s: seq<T>, x: T): (i: nat)
    requires x in s
    ensures i < |s| && s[i] == x && x !in s[..i]
  {
    if s[0] == x then 0
    else
      var j := FirstIndex(s[1..], x);
      assert s[..j + 1] == [s[0]] + s[1..][..j];
      j + 1
  }

  lemma {:induction false} FilterIsSubsequence<T(!new)>(s: seq<T>, p: T -> bool)
    ensures IsSubsequence(Filter(s, p), s)
  {
    if |s| > 0 {
      FilterIsSubsequence(s[1..], p);
      var rest := Filter(s[1..], p);
      if p(s[0]) {
        assert ([s[0]] + rest)[1..] == rest;
      } else if |rest| > 0 {
        assert p(rest[0]) && rest[0] != s[0];
      }
    }
  }

  /** Filtering distributes over concatenation: each part is filtered in place. */
  lemma {:induction false} FilterConcat<T(!new)>(a: seq<T>, b: seq<T>, p: T -> bool)
    ensures Filter(a + b, p) == Filter(a, p) + Filter(b, p)
  {
    if |a| == 0 {
      assert a + b == b;
    } else {
      assert (a + b)[0] == a[0];
      assert (a + b)[1..] == a[1..] + b;
      FilterConcat(a[1..], b, p);
    }
  }

  /** Elements whose keys are pairwise distinct stay so after filtering. */
  lemma {:induction false} FilterKeepsKeysDistinct<T(!new), K>(s: seq<T>, p: T -> bool, key: T -> K)
    requires forall i, j :: 0 <= i < j < |s| ==> key(s[i]) != key(s[j])
    ensures forall i, j :: 0 <= i < j < |Filter(s, p)| ==> key(Filter(s, p)[i]) != key(Filter(s, p)[j])
  {
    if |s| > 0 {
      FilterKeepsKeysDistinct(s[1..], p, key);
      var rest := Filter(s[1..], p);
      forall j | 0 <= j < |rest|
        ensures key(rest[j]) != key(s[0])
      {
        assert rest[j] in rest;
        var k :| 0 <= k < |s[1..]| && s[1..][k] == rest[j];
        assert s[k + 1] == rest[j];
      }
      var r := Filter(s, p);
      if p(s[0]) {
        assert r == [s[0]] + rest;
        forall i, j | 0 <= i < j < |r|
          ensures key(r[i]) != key(r[j])
        {
          assert r[j] == rest[j - 1];
          if i > 0 {
            assert r[i] == rest[i - 1];
            assert key(rest[i - 1]) != key(rest[j - 1]);
          } else {
            assert key(rest[j - 1]) != key(s[0]);
          }
        }
      }
    }
  }

  /** Filtering a second time with the same predicate removes nothing more. */
  lemma {:induction false} FilterIdempotent<T(!new)>(s: seq<T>, p: T -> bool)
    ensures Filter(Filter(s, p), p) == Filter(s, p)
  {
    if |s| > 0 {
      FilterIdempotent(s[1..], p);
      var rest := Filter(s[1..], p);
      if p(s[0]) {
        assert ([s[0]] + rest)[1..] == rest;
      }
    }
  }

  /** A filter that every element passes is the identity. */
  lemma {:induction false} FilterKeepsAll<T(!new)>(s: seq<T>, p: T -> bool)
    requires forall i :: 0 <= i < |s| ==> p(s[i])
    ensures Filter(s, p) == s
  {
    if |s| > 0 {
      FilterKeepsAll(s[1..], p);
      assert [s[0]] + s[1..] == s;
    }
  }

  /** A filter that no element passes leaves nothing. */
  lemma {:induction false} FilterDropsAll<T(!new)>(s: seq<T>, p: T -> bool)
    requires forall i :: 0 <= i < |s| ==> !p(s[i])
    ensures Filter(s, p) == []
  {
    if |s| > 0 {
      FilterDropsAll(s[1..], p);
    }
  }

  /** `s` without its first element equal to `x` (Python's `list.remove`), and `s` itself when there is none. */
  function RemoveFirst<T(==)>(s: seq<T>, x: T): (r: seq<T>)
    ensures x !in s ==> r == s
    ensures x in s ==> |r| == |s| - 1
  {
    if |s| == 0 then s
    else if s[0] == x then s[1..]
    else [s[0]] + RemoveFirst(s[1..], x)
  }

  /** When `x` does not occur before position |a|, `list.remove(x)` deletes the element at |a|. */
  lemma {:induction false} RemoveFirstAfterPrefix<T>(a: seq<T>, b: seq<T>)
    requires |b| > 0 && b[0] !in a
    ensures RemoveFirst(a + b, b[0]) == a + b[1..]
  {
    if |a| == 0 {
      assert a + b == b;
    } else {
      assert (a + b)[0] == a[0];
      assert (a + b)[1..] == a[1..] + b;
      RemoveFirstAfterPrefix(a[1..], b);
      assert a + b[1..] == [a[0]] + (a[1..] + b[1..]);
    }
  }

  /**
   * Filtering in place, one step: when the element at `i` fails `p`, removing
   * its first occurrence from the filtered prefix followed by the unvisited
   * rest removes exactly that element.
   */
  lemma FilterStepDrop<T(!new)>(s: seq<T>, i: nat, p: T -> bool)
    requires i < |s| && !p(s[i])
    ensures s[i] in Filter(s[..i], p) + s[i..]
    ensures RemoveFirst(Filter(s[..i], p) + s[i..], s[i]) == Filter(s[..i + 1], p) + s[i + 1..]
  {
    var kept := Filter(s[..i], p);
    assert s[i..][0] == s[i];
    assert s[i..][1..] == s[i + 1..];
    assert s[..i + 1] == s[..i] + [s[i]];
    FilterConcat(s[..i], [s[i]], p);
    assert Filter([s[i]], p) == [];
    RemoveFirstAfterPrefix(kept, s[i..]);
  }

  /** Filtering in place, one step: an element at `i` that passes `p` stays where it is. */
  lemma FilterStepKeep<T(!new)>(s: seq<T>, i: nat, p: T -> bool)
    requires i < |s| && p(s[i])
    ensures Filter(s[..i], p) + s[i..] == Filter(s[..i + 1], p) + s[i + 1..]
  {
    assert s[i..] == [s[i]] + s[i + 1..];
    assert s[..i + 1] == s[..i] + [s[i]];
    FilterConcat(s[..i], [s[i]], p);
    assert Filter([s[i]], p) == [s[i]];
  }

  /** The first occurrence of an element of a prefix lies in that prefix. */
  lemma FirstIndicesInPrefix<T>(s: seq<T>, n: nat)
    requires n <= |s|
    ensures forall x :: x in s[..n] ==> FirstIndex(s, x) == FirstIndex(s[..n], x)
  {
  }

  /**
   * The distinct elements of `s` in order of first appearance, as pandas'
   * `Series.unique` returns them.
   */
  function Unique<T(==,!new)>(s: seq<T>): (r: seq<T>)
    ensures forall x :: x in r <==> x in s
    ensures Distinct(r)
    ensures forall i, j :: 0 <= i < j < |r| ==> FirstIndex(s, r[i]) < FirstIndex(s, r[j])
  {
    if |s| == 0 then []
    else
      var init := s[..|s| - 1];
      var last := s[|s| - 1];
      var u := Unique(init);
      assert s == init + [last];
      FirstIndicesInPrefix(s, |s| - 1);
      if last in u then u
      else
        assert FirstIndex(s, last) == |s| - 1;
        u + [last]
  }
  /** The lists `f(x)` for the elements `x` of `s`, concatenated in order (a loop of `extend` calls). */
  function FlatMap<T, U>(s: seq<T>, f: T -> seq<U>): seq<U>
  {
    if |s| == 0 then [] else FlatMap(s[..|s| - 1], f) + f(s[|s| - 1])
  }

  /** One more element appends its list. */
  lemma FlatMapStep<T, U>(s: seq<T>, i: nat, f: T -> seq<U>)
    requires i < |s|
    ensures FlatMap(s[..i + 1], f) == FlatMap(s[..i], f) + f(s[i])
  {
    assert s[..i + 1][..i] == s[..i];
  }

  /** FlatMap distributes over concatenation. */
  lemma {:induction false} FlatMapConcat<T, U>(a: seq<T>, b: seq<T>, f: T -> seq<U>)
    ensures FlatMap(a + b, f) == FlatMap(a, f) + FlatMap(b, f)
  {
    if |b| == 0 {
      assert a + b == a;
    } else {
      var n := |b| - 1;
      assert (a + b)[..|a + b| - 1] == a + b[..n];
      assert (a + b)[|a + b| - 1] == b[n];
      FlatMapConcat(a, b[..n], f);
    }
  }

  /** An element of the result lies in the list of some element of `s`. */
  lemma {:induction false} FlatMapMember<T, U>(s: seq<T>, f: T -> seq<U>, x: U)
    ensures x in FlatMap(s, f) <==> exists j :: 0 <= j < |s| && x in f(s[j])
  {
    if |s| > 0 {
      var n := |s| - 1;
      FlatMapMember(s[..n], f, x);
      if exists j :: 0 <= j < |s| && x in f(s[j]) {
        var j :| 0 <= j < |s| && x in f(s[j]);
        if j < n {
          assert s[..n][j] == s[j];
        }
      }
      if x in FlatMap(s[..n], f) {
        var j :| 0 <= j < n && x in f(s[..n][j]);
        assert s[..n][j] == s[j];
      }
    }
  }
  /**
   * The map built by assigning `m[key(x)] := value(x)` for the elements `x` of
   * `s` that pass `keep`, in order, starting from the empty map.
   */
  function InsertAll<T, K(==), V>(s: seq<T>, keep: T -> bool, key: T -> K, value: T -> V): map<K, V>
  {
    if |s| == 0 then map[]
    else
      var m := InsertAll(s[..|s| - 1], keep, key, value);
      var x := s[|s| - 1];
      if keep(x) then m[key(x) := value(x)] else m
  }

  /** One more element is inserted if it passes `keep`. */
  lemma InsertAllStep<T, K, V>(s: seq<T>, i: nat, keep: T -> bool, key: T -> K, value: T -> V)
    requires i < |s|
    ensures InsertAll(s[..i + 1], keep, key, value)
            == if keep(s[i]) then InsertAll(s[..i], keep, key, value)[key(s[i]) := value(s[i])]
               else InsertAll(s[..i], keep, key, value)
  {
    assert s[..i + 1][..i] == s[..i];
  }

  /** The keys are the keys of the kept elements, and each value is that of a kept element with its key. */
  lemma {:induction false} InsertAllKeys<T, K, V>(s: seq<T>, keep: T -> bool, key: T -> K, value: T -> V, k: K)
    ensures k in InsertAll(s, keep, key, value) <==> exists j :: 0 <= j < |s| && keep(s[j]) && key(s[j]) == k
    ensures k in InsertAll(s, keep, key, value) ==>
              exists j :: 0 <= j < |s| && keep(s[j]) && key(s[j]) == k && InsertAll(s, keep, key, value)[k] == value(s[j])
  {
    if |s| > 0 {
      var n := |s| - 1;
      var init := s[..n];
      InsertAllKeys(init, keep, key, value, k);
      if exists j :: 0 <= j < |s| && keep(s[j]) && key(s[j]) == k {
        var j :| 0 <= j < |s| && keep(s[j]) && key(s[j]) == k;
        if j < n {
          assert init[j] == s[j];
        }
      }
      var m := InsertAll(s, keep, key, value);
      if k in m {
        if keep(s[n]) && key(s[n]) == k {
          assert m[k] == value(s[n]);
        } else {
          var j :| 0 <= j < n && keep(init[j]) && key(init[j]) == k
                   && InsertAll(init, keep, key, value)[k] == value(init[j]);
          assert init[j] == s[j];
        }
      }
    }
  }

  /** The value under a key is that of the last kept element with that key. */
  lemma {:induction false} InsertAllLastWins<T, K, V>(s: seq<T>, keep: T -> bool, key: T -> K, value: T -> V, j: nat)
    requires j < |s| && keep(s[j])
    requires forall i :: j < i < |s| ==> !keep(s[i]) || key(s[i]) != key(s[j])
    ensures key(s[j]) in InsertAll(s, keep, key, value)
    ensures InsertAll(s, keep, key, value)[key(s[j])] == value(s[j])
  {
    var n := |s| - 1;
    var init := s[..n];
    if j < n {
      assert init[j] == s[j];
      forall i | j < i < |init|
        ensures !keep(init[i]) || key(init[i]) != key(init[j])
      {
        assert init[i] == s[i];
      }
      InsertAllLastWins(init, keep, key, value, j);
    }
  }
}

=== FILE: spreadsheet_docu.dfy ===
/**
 * The table logic of the spreadsheet documentation: filtering the table by the
 * two blacklists, merging freshly scanned rows into the downloaded table, and
 * the merge-then-filter pass whose result is uploaded.
 *
 * Fetching the table and the blacklists and uploading the result are calls
 * into the spreadsheet service; here the fetched values are parameters and
 * the uploaded table is the result.
 */
module SpreadsheetDocu {
  import opened Wrappers
  import opened Seqs
  import opened Catalog

  /** The column holding drive names. */
  const DRIVES_COL := "drive-name"
  /** The column holding project (directory) names. */
  const DIR_COL := "project-name"

  /** A pandas KeyError: a column was selected that the DataFrame does not have. */
  datatype DocuError = MissingColumn(column: string)

  /** The row names neither a blacklisted drive nor a blacklisted directory. */
  predicate NotBlacklisted(row: Row, blDrives: set<string>, blDirectories: set<string>)
  {
    row.driveName !in blDrives && row.projectName !in blDirectories
  }

  /** The row mask `~isin(bl_drives) & ~isin(bl_directories)` as a predicate. */
  function KeepRow(blDrives: set<string>, blDirectories: set<string>): Row -> bool
  {
    (row: Row) => NotBlacklisted(row, blDrives, blDirectories)
  }

  /** The row mask `~isin(connected_drives)` as a predicate. */
  function KeepDisconnected(connectedDrives: set<string>): Row -> bool
  {
    (row: Row) => row.driveName !in connectedDrives
  }

  /** `apply_blacklist_on_df`: the rows naming no blacklisted drive or directory, in order. */
  function ApplyBlacklistOnDf(docu: Frame, blDrives: set<string>, blDirectories: set<string>)
    : (r: Result<Frame, DocuError>)
    ensures r.Ok? <==> docu.hasColumns
    ensures r.Ok? ==> r.value.hasColumns && IsSubsequence(r.value.rows, docu.rows)
    ensures r.Ok? ==> forall row {:trigger row in r.value.rows} :: row in r.value.rows <==>
                        row in docu.rows && NotBlacklisted(row, blDrives, blDirectories)
    ensures r.Ok? ==> forall row {:trigger multiset(r.value.rows)[row]} :: multiset(r.value.rows)[row] ==
                        if NotBlacklisted(row, blDrives, blDirectories) then multiset(docu.rows)[row] else 0
  {
    if !docu.hasColumns then Err(MissingColumn(DRIVES_COL))
    else
      FilterIsSubsequence(docu.rows, KeepRow(blDrives, blDirectories));
      Ok(Frame(true, Filter(docu.rows, KeepRow(blDrives, blDirectories))))
  }

  /** Filtering an already filtered table changes nothing. */
  lemma ApplyBlacklistIdempotent(docu: Frame, blDrives: set<string>, blDirectories: set<string>)
    requires docu.hasColumns
    ensures ApplyBlacklistOnDf(ApplyBlacklistOnDf(docu, blDrives, blDirectories).value, blDrives, blDirectories)
            == ApplyBlacklistOnDf(docu, blDrives, blDirectories)
  {
    FilterIdempotent(docu.rows, KeepRow(blDrives, blDirectories));
  }

  /**
   * `_update_docu_offline`: the downloaded rows of drives that are not
   * connected now, in their order, followed by all freshly scanned rows.
   */
  function UpdateDocuOffline(downloaded: Frame, connected: Frame): (r: Result<Frame, DocuError>)
    ensures r.Err? <==> connected.hasColumns && !downloaded.hasColumns
    ensures r.Ok? ==> r.value.hasColumns == (downloaded.hasColumns || connected.hasColumns)
    ensures r.Ok? ==> |connected.rows| <= |r.value.rows|
                      && r.value.rows[|r.value.rows| - |connected.rows|..] == connected.rows
    ensures r.Ok? && !connected.hasColumns ==> r.value.rows == downloaded.rows + connected.rows
    ensures r.Ok? && connected.hasColumns ==>
              var stale := r.value.rows[..|r.value.rows| - |connected.rows|];
              && IsSubsequence(stale, downloaded.rows)
              && (forall row {:trigger row in stale} :: row in stale <==>
                    row in downloaded.rows && row.driveName !in DriveNames(connected.rows))
              && forall row {:trigger multiset(stale)[row]} :: multiset(stale)[row] ==
                   if row.driveName !in DriveNames(connected.rows) then multiset(downloaded.rows)[row] else 0
  {
    if connected.hasColumns then
      if !downloaded.hasColumns then Err(MissingColumn(DRIVES_COL))
      else
        var connectedDrives := DriveNames(connected.rows);
        var stale := Filter(downloaded.rows, KeepDisconnected(connectedDrives));
        FilterIsSubsequence(downloaded.rows, KeepDisconnected(connectedDrives));
        assert (stale + connected.rows)[..|stale|] == stale;
        Ok(Frame(true, stale + connected.rows))
    else
      Ok(Frame(downloaded.hasColumns, downloaded.rows + connected.rows))
  }

  /**
   * Merging a table with itself gives the table back, and the uploaded table is
   * then the scanned table with the blacklist applied.
   */
  lemma MergeWithItself(x: Frame, blDrives: set<string>, blDirectories: set<string>)
    requires WellFormed(x)
    ensures UpdateDocuOffline(x, x) == Ok(x)
    ensures UpdateOnlineSpreadsheet(x, x, blDrives, blDirectories) == ApplyBlacklistOnDf(x, blDrives, blDirectories)
  {
    if x.hasColumns {
      var keep := KeepDisconnected(DriveNames(x.rows));
      forall i | 0 <= i < |x.rows|
        ensures !keep(x.rows[i])
      {
        assert x.rows[i] in x.rows;
      }
      FilterDropsAll(x.rows, keep);
      assert [] + x.rows == x.rows;
    } else {
      assert x.rows + x.rows == x.rows;
    }
  }

  /**
   * The merge-then-filter body of `update_online_spreadsheet`: the table that
   * is uploaded, given the downloaded table, the scanned table and the two
   * blacklists.
   */
  function UpdateOnlineSpreadsheet(downloaded: Frame, connected: Frame,
                                   blDrives: set<string>, blDirectories: set<string>)
    : (r: Result<Frame, DocuError>)
    requires WellFormed(connected)
    ensures r.Err? <==> !downloaded.hasColumns
    ensures r.Ok? ==> forall row {:trigger row in r.value.rows} :: row in r.value.rows ==>
                        row.driveName !in blDrives && row.projectName !in blDirectories
    ensures r.Ok? ==> forall row {:trigger row in r.value.rows} :: row in r.value.rows <==>
                        && NotBlacklisted(row, blDrives, blDirectories)
                        && ((row in downloaded.rows && row.driveName !in DriveNames(connected.rows))
                            || row in connected.rows)
  {
    var updated :- UpdateDocuOffline(downloaded, connected);
    ApplyBlacklistOnDf(updated, blDrives, blDirectories)
  }

  /**
   * The uploaded rows in order: the surviving rows of disconnected drives
   * first, then the surviving scanned rows.
   */
  lemma UploadOrder(downloaded: Frame, connected: Frame, blDrives: set<string>, blDirectories: set<string>)
    requires WellFormed(connected) && downloaded.hasColumns
    ensures var keep := KeepRow(blDrives, blDirectories);
            UpdateOnlineSpreadsheet(downloaded, connected, blDrives, blDirectories).value.rows
            == Filter(Filter(downloaded.rows, KeepDisconnected(DriveNames(connected.rows))), keep)
               + Filter(connected.rows, keep)
  {
    var stale := Filter(downloaded.rows, KeepDisconnected(DriveNames(connected.rows)));
    if connected.hasColumns {
      FilterConcat(stale, connected.rows, KeepRow(blDrives, blDirectories));
    } else {
      // No drive is connected: the scan is empty and every downloaded row is stale.
      assert DriveNames(connected.rows) == {};
      FilterKeepsAll(downloaded.rows, KeepDisconnected({}));
      assert downloaded.rows + connected.rows == downloaded.rows;
    }
  }

  /** Rows of disconnected drives followed by rows of connected drives: dropping the connected ones leaves the first part. */
  lemma DropConnectedRows(stale: seq<Row>, scanned: seq<Row>, connectedDrives: set<string>)
    requires forall i :: 0 <= i < |stale| ==> stale[i].driveName !in connectedDrives
    requires forall i :: 0 <= i < |scanned| ==> scanned[i].driveName in connectedDrives
    ensures Filter(stale + scanned, KeepDisconnected(connectedDrives)) == stale
  {
    var disconnected := KeepDisconnected(connectedDrives);
    FilterConcat(stale, scanned, disconnected);
    FilterKeepsAll(stale, disconnected);
    FilterDropsAll(scanned, disconnected);
    assert stale + [] == stale;
  }

  /** Running the same update on the table it produced uploads that table again. */
  lemma UpdateIsIdempotent(downloaded: Frame, connected: Frame, blDrives: set<string>, blDirectories: set<string>)
    requires WellFormed(connected)
    requires UpdateOnlineSpreadsheet(downloaded, connected, blDrives, blDirectories).Ok?
    ensures var uploaded := UpdateOnlineSpreadsheet(downloaded, connected, blDrives, blDirectories).value;
            UpdateOnlineSpreadsheet(uploaded, connected, blDrives, blDirectories) == Ok(uploaded)
  {
    var keep := KeepRow(blDrives, blDirectories);
    var uploaded := UpdateOnlineSpreadsheet(downloaded, connected, blDrives, blDirectories).value;
    if connected.hasColumns {
      var names := DriveNames(connected.rows);
      var stale := Filter(downloaded.rows, KeepDisconnected(names));
      var keptStale := Filter(stale, keep);
      var keptFresh := Filter(connected.rows, keep);
      UploadOrder(downloaded, connected, blDrives, blDirectories);
      assert uploaded == Frame(true, keptStale + keptFresh);
      forall i | 0 <= i < |keptStale|
        ensures keptStale[i].driveName !in names
      {
        assert keptStale[i] in keptStale;
        assert keptStale[i] in stale;
      }
      forall i | 0 <= i < |keptFresh|
        ensures keptFresh[i].driveName in names
      {
        assert keptFresh[i] in keptFresh;
        assert keptFresh[i] in connected.rows;
      }
      DropConnectedRows(keptStale, keptFresh, names);
      assert UpdateDocuOffline(uploaded, connected) == Ok(Frame(true, keptStale + connected.rows));
      FilterConcat(keptStale, connected.rows, keep);
      FilterIdempotent(stale, keep);
      assert ApplyBlacklistOnDf(Frame(true, keptStale + connected.rows), blDrives, blDirectories)
             == Ok(Frame(true, keptStale + keptFresh));
    } else {
      assert connected.rows == [];
      assert downloaded.rows + connected.rows == downloaded.rows;
      var kept := Filter(downloaded.rows, keep);
      assert uploaded == Frame(true, kept);
      assert kept + connected.rows == kept;
      FilterIdempotent(downloaded.rows, keep);
    }
  }
}

=== FILE: spreadsheet_formatter.dfy ===
/**
 * Formatting of the documentation sheet: spreadsheet column letters, and the
 * list of conditional-format rules that colours each distinct value of a
 * column. The rule list is an object the program edits in place: rules of the
 * column are removed from it, then one rule per distinct value is appended.
 *
 * Reading the rules and the table from the sheet and saving the rules back are
 * calls into the spreadsheet service; here the read values are parameters.
 */
module SpreadsheetFormatter {
  import opened Wrappers
  import opened Seqs

  // ---------------------------------------------------------------------------
  // Column letters
  // ---------------------------------------------------------------------------

  predicate IsLetter(c: char)
  {
    'A' <= c <= 'Z'
  }

  /** A spreadsheet column id: one or more capital letters. */
  predicate IsColumnId(id: string)
  {
    |id| > 0 && forall i :: 0 <= i < |id| ==> IsLetter(id[i])
  }

  /** `chr(ord('A') + position)`. */
  function Letter(position: nat): (c: char)
    requires position < 26
    ensures IsLetter(c) && c as int - 'A' as int == position
  {
    ('A' as int + position) as char
  }

  /** `get_column_id_from_column_position`: 0 is "A", 25 is "Z", 26 is "AA". */
  function ColumnId(position: nat): (id: string)
    ensures IsColumnId(id)
  {
    if position > 25 then ColumnId(position / 26 - 1) + ColumnId(position % 26)
    else [Letter(position)]
  }

  /** The value of a column id read as a bijective base-26 numeral: "A" is 1, "Z" is 26, "AA" is 27. */
  function LettersValue(id: string): int
  {
    if |id| == 0 then 0
    else LettersValue(id[..|id| - 1]) * 26 + (id[|id| - 1] as int - 'A' as int + 1)
  }

  /** The zero-based column position a column id names (the letters-to-index decoding of A1 notation). */
  function ColumnPosition(id: string): int
  {
    LettersValue(id) - 1
  }

  lemma ColumnIdExamples()
    ensures ColumnId(0) == "A"
    ensures ColumnId(1) == "B"
    ensures ColumnId(25) == "Z"
    ensures ColumnId(26) == "AA"
    ensures ColumnId(27) == "AB"
    ensures ColumnId(701) == "ZZ"
    ensures ColumnId(702) == "AAA"
  {
  }

  /** Decoding the letters of a position gives the position back. */
  lemma {:induction false} ColumnIdRoundTrip(position: nat)
    ensures ColumnPosition(ColumnId(position)) == position
  {
    if position > 25 {
      var q := position / 26 - 1;
      var r := position % 26;
      ColumnIdRoundTrip(q);
      var head := ColumnId(q);
      var id := head + [Letter(r)];
      assert ColumnId(r) == [Letter(r)];
      assert ColumnId(position) == id;
      assert id[..|id| - 1] == head;
      assert Letter(r) as int == 'A' as int + r;
      assert LettersValue(id) == LettersValue(head) * 26 + r + 1;
      assert position == (q + 1) * 26 + r;
    } else {
      var id := [Letter(position)];
      assert ColumnId(position) == id;
      assert id[..0] == [];
      assert Letter(position) as int == 'A' as int + position;
      assert LettersValue(id) == LettersValue(id[..0]) * 26 + position + 1;
    }
  }

  /** A nonempty column id has a positive value. */
  lemma {:induction false} LettersValuePositive(id: string)
    requires IsColumnId(id)
    ensures LettersValue(id) >= 1
  {
    if |id| > 1 {
      LettersValuePositive(id[..|id| - 1]);
    }
  }

  /** Every column id is the letters of the position it names: the numbering is onto. */
  lemma {:induction false} ColumnPositionRoundTrip(id: string)
    requires IsColumnId(id)
    ensures ColumnPosition(id) >= 0 && ColumnId(ColumnPosition(id)) == id
  {
    var n := |id|;
    var init := id[..n - 1];
    var c := id[n - 1];
    var d := c as int - 'A' as int;
    assert Letter(d) == c;
    if n == 1 {
      assert init == [];
      assert LettersValue(id) == d + 1;
      assert ColumnId(d) == [c];
      assert id == [c];
    } else {
      ColumnPositionRoundTrip(init);
      LettersValuePositive(init);
      var v := LettersValue(init);
      var position := v * 26 + d;
      assert ColumnPosition(id) == position;
      assert position / 26 == v && position % 26 == d;
      assert ColumnId(position) == init + [c];
      assert init + [c] == id;
    }
  }

  /** Distinct positions have distinct column ids. */
  lemma ColumnIdInjective(m: nat, n: nat)
    requires ColumnId(m) == ColumnId(n)
    ensures m == n
  {
    ColumnIdRoundTrip(m);
    ColumnIdRoundTrip(n);
  }

  // ---------------------------------------------------------------------------
  // Conditional-format rules
  // ---------------------------------------------------------------------------

  /** What a rule holds besides the columns of its first range. */
  datatype RulePayload =
    | Opaque(id: nat)
    | TextEq(cellRange: string, textMatch: string, colorIndex: nat, colorCount: nat)

  /**
   * A conditional-format rule, seen through the start and end column indices of
   * its first grid range (absent where the range leaves them unset).
   */
  datatype Rule = Rule(startColumnIndex: Option<int>, endColumnIndex: Option<int>, payload: RulePayload)

  /** The rule's first range covers exactly the column at `columnPosition`. */
  predicate AppliesToColumn(rule: Rule, columnPosition: int)
  {
    rule.startColumnIndex == Some(columnPosition) && rule.endColumnIndex == Some(columnPosition + 1)
  }

  function KeepOtherColumns(columnPosition: int): Rule -> bool
  {
    (rule: Rule) => !AppliesToColumn(rule, columnPosition)
  }

  /** The rules that do not cover exactly the given column, in their order. */
  function RulesWithoutColumn(rules: seq<Rule>, columnPosition: int): (r: seq<Rule>)
    ensures forall rule {:trigger rule in r} :: rule in r <==> rule in rules && !AppliesToColumn(rule, columnPosition)
    ensures IsSubsequence(r, rules)
    ensures forall rule {:trigger multiset(r)[rule]} ::
              multiset(r)[rule] == if AppliesToColumn(rule, columnPosition) then 0 else multiset(rules)[rule]
  {
    FilterIsSubsequence(rules, KeepOtherColumns(columnPosition));
    Filter(rules, KeepOtherColumns(columnPosition))
  }

  /** Removing the column's rules a second time removes nothing more. */
  lemma RulesWithoutColumnIdempotent(rules: seq<Rule>, columnPosition: int)
    ensures RulesWithoutColumn(RulesWithoutColumn(rules, columnPosition), columnPosition)
            == RulesWithoutColumn(rules, columnPosition)
  {
    FilterIdempotent(rules, KeepOtherColumns(columnPosition));
  }

  /** The rule list of a worksheet, which the program edits in place and then saves. */
  class ConditionalFormatRules {
    var rules: seq<Rule>

    constructor (rules: seq<Rule>)
      ensures this.rules == rules
    {
      this.rules := rules;
    }

    /** `list.remove`: deletes the first rule equal to `rule` (Python raises ValueError when there is none). */
    method Remove(rule: Rule)
      requires rule in rules
      modifies this
      ensures rules == RemoveFirst(old(rules), rule)
    {
      rules := RemoveFirst(rules, rule);
    }

    /** `list.append`. */
    method Append(rule: Rule)
      modifies this
      ensures rules == old(rules) + [rule]
    {
      rules := rules + [rule];
    }
  }

  /**
   * `remove_rules_by_column`: walks a copy of the list and removes from the
   * list itself every rule whose first range covers exactly the column; returns
   * the same list object.
   */
  method RemoveRulesByColumn(rules: ConditionalFormatRules, columnPosition: int)
    returns (result: ConditionalFormatRules)
    modifies rules
    ensures result == rules
    ensures rules.rules == RulesWithoutColumn(old(rules.rules), columnPosition)
  {
    var snapshot := rules.rules;
    ghost var keep := KeepOtherColumns(columnPosition);
    for i := 0 to |snapshot|
      invariant rules.rules == Filter(snapshot[..i], keep) + snapshot[i..]
    {
      var rule := snapshot[i];
      assert keep(rule) == !AppliesToColumn(rule, columnPosition);
      if AppliesToColumn(rule, columnPosition) {
        FilterStepDrop(snapshot, i, keep);
        rules.Remove(rule);
      } else {
        FilterStepKeep(snapshot, i, keep);
      }
    }
    assert snapshot[..|snapshot|] == snapshot;
    result := rules;
  }

  // ---------------------------------------------------------------------------
  // Rebuilding the rules of one column: color_unique_cells_by_column
  // ---------------------------------------------------------------------------

  function DigitChar(d: nat): char
    requires d < 10
  {
    ('0' as int + d) as char
  }

  /** `str(n)` for a natural number. */
  function NatToString(n: nat): (s: string)
    ensures |s| > 0 && forall i :: 0 <= i < |s| ==> '0' <= s[i] <= '9'
    ensures s[0] == '0' ==> n == 0
  {
    if n < 10 then [DigitChar(n)] else NatToString(n / 10) + [DigitChar(n % 10)]
  }

  /** The number a string of decimal digits spells, most significant digit first. */
  function DecimalValue(s: string): int
  {
    if |s| == 0 then 0
    else DecimalValue(s[..|s| - 1]) * 10 + (s[|s| - 1] as int - '0' as int)
  }

  /** The digits `str(n)` writes spell n. */
  lemma {:induction false} NatToStringRoundTrip(n: nat)
    ensures DecimalValue(NatToString(n)) == n
  {
    var s := NatToString(n);
    if n < 10 {
      assert s[..0] == [];
    } else {
      NatToStringRoundTrip(n / 10);
      assert s[..|s| - 1] == NatToString(n / 10);
    }
  }

  /** The first row that the formatted range always reaches. */
  const MIN_LAST_ROW := 990

  /** The A1 range `{col}2:{col}{max(990, rowCount)}`: the column below its header. */
  function ColumnRange(columnId: string, rowCount: nat): (r: string)
    ensures IsColumnId(columnId) ==> LeadingLetters(r) == columnId
  {
    var rest := "2:" + columnId + NatToString(if rowCount > MIN_LAST_ROW then rowCount else MIN_LAST_ROW);
    assert IsColumnId(columnId) ==> LeadingLetters(columnId + rest) == columnId by {
      if IsColumnId(columnId) {
        LeadingLettersOfColumnId(columnId, rest);
      }
    }
    columnId + rest
  }

  /** The header is sheet row 1, so the data of a table with `rowCount` rows ends at sheet row rowCount + 1. */
  function LastDataRow(rowCount: nat): nat
  {
    rowCount + 1
  }

  /**
   * The range covers sheet rows 2 to max(990, rowCount): it reaches the last
   * data row exactly when the table has fewer than 990 rows, and from 990 rows
   * on the last data row lies one past the range's end.
   */
  lemma ColumnRangeRows(columnPosition: nat, rowCount: nat)
    ensures var columnId := ColumnId(columnPosition);
            exists lastRow: nat {:trigger NatToString(lastRow)} ::
              && ColumnRange(columnId, rowCount) == columnId + "2:" + columnId + NatToString(lastRow)
              && DecimalValue(NatToString(lastRow)) == lastRow
              && (rowCount <= MIN_LAST_ROW ==> lastRow == MIN_LAST_ROW)
              && (rowCount >= MIN_LAST_ROW ==> lastRow == rowCount)
              && (LastDataRow(rowCount) <= lastRow <==> rowCount < MIN_LAST_ROW)
  {
    var columnId := ColumnId(columnPosition);
    var lastRow: nat := if rowCount > MIN_LAST_ROW then rowCount else MIN_LAST_ROW;
    NatToStringRoundTrip(lastRow);
    assert ColumnRange(columnId, rowCount) == columnId + ("2:" + columnId + NatToString(lastRow));
    assert columnId + ("2:" + columnId + NatToString(lastRow)) == columnId + "2:" + columnId + NatToString(lastRow);
    assert LastDataRow(rowCount) <= lastRow <==> rowCount < MIN_LAST_ROW;
  }

  lemma ColumnRangeExamples()
    ensures ColumnRange("A", 5) == "A2:A990"
    ensures ColumnRange("AB", 1200) == "AB2:AB1200"
  {
  }

  /** The column letters an A1 range starts with. */
  function LeadingLetters(cellRange: string): (r: string)
    ensures r <= cellRange
  {
    if |cellRange| == 0 || !IsLetter(cellRange[0]) then []
    else [cellRange[0]] + LeadingLetters(cellRange[1..])
  }

  /** The leading letters of a column id followed by a non-letter are that column id. */
  lemma {:induction false} LeadingLettersOfColumnId(id: string, rest: string)
    requires IsColumnId(id) && |rest| > 0 && !IsLetter(rest[0])
    ensures LeadingLetters(id + rest) == id
  {
    if |id| > 1 {
      assert (id + rest)[1..] == id[1..] + rest;
      LeadingLettersOfColumnId(id[1..], rest);
    } else {
      assert (id + rest)[1..] == rest;
    }
  }

  /**
   * The rule `create_conditional_formatting_rule_text_eq` builds: text equal to
   * `textMatch` gets colour `colorIndex` of `colorCount`. Its first range is the
   * A1 range, whose start column is the position its leading letters name and
   * which spans that one column.
   */
  function TextEqRule(cellRange: string, textMatch: string, colorIndex: nat, colorCount: nat): (r: Rule)
    ensures AppliesToColumn(r, ColumnPosition(LeadingLetters(cellRange)))
    ensures r.payload == TextEq(cellRange, textMatch, colorIndex, colorCount)
  {
    var start := ColumnPosition(LeadingLetters(cellRange));
    Rule(Some(start), Some(start + 1), TextEq(cellRange, textMatch, colorIndex, colorCount))
  }

  /** The rules appended for a column: one per distinct value, in order of first appearance. */
  function ValueRules(columnValues: seq<string>, columnPosition: nat): (r: seq<Rule>)
    ensures |r| == |Unique(columnValues)|
    ensures forall i :: 0 <= i < |r| ==>
              && r[i].payload.TextEq?
              && r[i].payload.textMatch == Unique(columnValues)[i]
              && r[i].payload.colorIndex == i
              && r[i].payload.colorCount == |r|
  {
    var values := Unique(columnValues);
    var cellRange := ColumnRange(ColumnId(columnPosition), |columnValues|);
    seq(|values|, i requires 0 <= i < |values| => TextEqRule(cellRange, values[i], i, |values|))
  }

  /**
   * `color_unique_cells_by_column`, the rule-list part: the rules of the column
   * are removed and one rule per distinct value of the column is appended.
   * `columnValues` is the column below its header, `columnPosition` its index.
   */
  method ColorUniqueCellsByColumn(rules: ConditionalFormatRules, columnValues: seq<string>, columnPosition: nat)
    modifies rules
    ensures rules.rules == RulesWithoutColumn(old(rules.rules), columnPosition)
                           + ValueRules(columnValues, columnPosition)
  {
    var values := Unique(columnValues);
    var colorCount := |values|;
    var columnId := ColumnId(columnPosition);
    var cellRange := ColumnRange(columnId, |columnValues|);
    var edited := RemoveRulesByColumn(rules, columnPosition);
    ghost var survivors := edited.rules;
    ghost var appended := ValueRules(columnValues, columnPosition);
    for i := 0 to colorCount
      invariant edited.rules == survivors + appended[..i]
    {
      assert appended[..i + 1] == appended[..i] + [appended[i]];
      edited.Append(TextEqRule(cellRange, values[i], i, colorCount));
    }
    assert appended[..colorCount] == appended;
  }

  /**
   * Every appended rule covers exactly the formatted column, over the range
   * below its header; the i-th matches the i-th distinct value.
   */
  lemma ValueRulesShape(columnValues: seq<string>, columnPosition: nat)
    ensures var appended := ValueRules(columnValues, columnPosition);
            && |appended| == |Unique(columnValues)|
            && forall i :: 0 <= i < |appended| ==>
                 && AppliesToColumn(appended[i], columnPosition)
                 && appended[i].payload.TextEq?
                 && appended[i].payload.textMatch == Unique(columnValues)[i]
                 && appended[i].payload.cellRange == ColumnRange(ColumnId(columnPosition), |columnValues|)
  {
    var values := Unique(columnValues);
    var cellRange := ColumnRange(ColumnId(columnPosition), |columnValues|);
    var appended := ValueRules(columnValues, columnPosition);
    RangeStartsAtColumn(columnPosition, |columnValues|);
    forall i | 0 <= i < |appended|
      ensures AppliesToColumn(appended[i], columnPosition)
    {
      assert appended[i] == TextEqRule(cellRange, values[i], i, |values|);
    }
  }

  /** The start column read back from the formatted range is the formatted column. */
  lemma RangeStartsAtColumn(columnPosition: nat, rowCount: nat)
    ensures ColumnPosition(LeadingLetters(ColumnRange(ColumnId(columnPosition), rowCount))) == columnPosition
  {
    var columnId := ColumnId(columnPosition);
    var rest := "2:" + columnId + NatToString(if rowCount > MIN_LAST_ROW then rowCount else MIN_LAST_ROW);
    assert ColumnRange(columnId, rowCount) == columnId + rest;
    LeadingLettersOfColumnId(columnId, rest);
    ColumnIdRoundTrip(columnPosition);
  }

  /** Formatting the same column twice leaves the rules as one formatting did: nothing accumulates. */
  lemma ReformattingIsIdempotent(rules: seq<Rule>, columnValues: seq<string>, columnPosition: nat)
    ensures var once := RulesWithoutColumn(rules, columnPosition) + ValueRules(columnValues, columnPosition);
            RulesWithoutColumn(once, columnPosition) + ValueRules(columnValues, columnPosition) == once
  {
    var keep := KeepOtherColumns(columnPosition);
    var survivors := Filter(rules, keep);
    var appended := ValueRules(columnValues, columnPosition);
    ValueRulesShape(columnValues, columnPosition);
    forall i | 0 <= i < |appended|
      ensures !keep(appended[i])
    {
      assert AppliesToColumn(appended[i], columnPosition);
    }
    FilterDropsAll(appended, keep);
    FilterConcat(survivors, appended, keep);
    FilterIdempotent(rules, keep);
    assert Filter(survivors + appended, keep) == survivors;
  }
}

=== FILE: wrappers.dfy ===
/** Failure-compatible wrappers: Python's `None` and raised exceptions become values. */
module Wrappers {

  /** An optional value; `None` stands for Python's `None`. */
  datatype Option<+T> = None | Some(value: T)

  /** A computation that either yields a value or raises an error. */
  datatype Result<+T, +E> = Ok(value: T) | Err(error: E) {

    predicate IsFailure() {
      Err?
    }

    function PropagateFailure<U>(): Result<U, E>
      requires Err?
    {
      Err(error)
    }

    function Extract(): T
      requires Ok?
    {
      value
    }
  }
}
